=== FILE: README.md ===
# Campus election: vote admission and client guards in Dafny

This project models the core of a small voting application: an Express/MongoDB
backend (`server.js`) that keeps a roster of candidates and a ledger of votes
and admits at most one vote per (voter email, device id) pair, and the browser
code (`app.js`) that keeps a device id and a "voted" flag in `localStorage`,
guards the registration and vote forms, and shows each candidate's share of
the total.

Both collections are modelled as one immutable `Server.State` (a sequence of
`Candidate` and a sequence of `VoteRecord`, in insertion order); every HTTP
handler is a pure function from state and request to new state and reply.
`localStorage` is a `map<string, string>`; `Math.random` becomes an `entropy`
argument and the server's reply to the browser becomes a `Reply` argument.
Percentages are exact `real`s. Module `Election` plugs the client's guards into
the server's vote handler to state what the two sides guarantee together.

Files: `options.dfy` (Option), `server.dfy` (data model and handlers),
`server_invariants.dfy` (what the handlers keep), `results.dfy` (total and
percentages), `js_string.dfy` (JavaScript `trim`), `local_storage.dfy`
(device id and voted flag), `client.dfy` (form handlers), `election.dfy`
(client and server together).

The model follows the code, including where it departs from what a reader might expect:
- the vote handler never checks that the candidate exists: a vote for an
  unknown id is stored and answered with 200, and no counter moves;
- a missing or empty required field makes `save` fail validation, which the
  handler answers with 500 (not 400);
- the duplicate lookup runs before validation, so a known pair is answered
  "already voted" even when another field is missing;
- `POST /api/reset-candidates` deletes candidates only; the vote ledger stays,
  so earlier voters are still refused, and the fresh zero counters disagree
  with the ledger whenever it names ids 1, 2 or 3 (`ResetTalliedIff`);
- `handleVoteSubmit` reads the device id (creating and storing one if none
  exists) before it checks for a registered email, so that one refusal can
  still write the `deviceId` key; the other two refusals leave storage as it was.

A missing field in the duplicate lookup is taken to match no record (an absent
value is sent to the database as `null`, and every stored record has all three
fields). The lookup before `save` and the duplicate-key error that `save` can
raise (code 11000) give the same reply in a sequential model and are one
outcome, `AlreadyVoted`.

## Model

| member | source | states |
|---|---|---|
| `Server.Vote` | server.js:162-197 | A request whose (email, device) pair is already in the ledger gets "already voted" and changes nothing; otherwise a request with a missing or empty field gets 500 and changes nothing; otherwise exactly one record (candidateId, email, device) is appended and only the first candidate with that id gains one vote |
| `Server.Status` | server.js:171-194 | The vote reply's status is in the 2xx range exactly for an accepted vote; "already voted" is 400 (a failed save is 500) |
| `Server.Duplicate` | server.js:168-170 | Definition, no contract: the `findOne({ voterEmail, deviceId })` lookup finds a record with both fields equal; an absent field matches no record |
| `Server.Complete` | server.js:69-71 | Definition, no contract: the `required` validators of the vote schema pass, so all three fields are present and neither string is empty |
| `Server.FindCandidate` | server.js:180-184 | Finds the first candidate carrying the id, or reports that no candidate carries it |
| `Server.IncrementVote` | server.js:180-184 | The `$inc` keeps length, ids and names, adds one to the first candidate with the id and leaves every other counter alone; with no match nothing changes |
| `Server.SeedIfEmpty` | server.js:90-116 | A non-empty roster is left as it is; an empty one becomes ids 1, 2, 3 with zero counts; the ledger is untouched and the roster is never empty afterwards |
| `Server.Reset` | server.js:200-209 | The roster becomes the default three with zero counts whatever it was; the ledger is untouched |
| `Server.ListCandidates` | server.js:141-160 | The returned roster is never empty and is the stored one; an existing roster is returned without any change |
| `Server.CheckInit` | server.js:126-138 | Reports initialised exactly when the roster is non-empty, returns the roster, changes nothing |
| `Server.Step` | server.js:119-209 | Whatever handler runs, the old ledger is a prefix of the new one; the ledger changes only on an accepted vote, and then by one record; check-init changes nothing |
| `ServerInvariants.CountForZeroIff` | server.js:175-176 | A candidate has a zero record count exactly when no ledger record names it |
| `ServerInvariants.VotePreservesConsistency` | server.js:174-184 | From a state with unique candidate ids, unique pairs, well-formed records and counters equal to record counts, every vote leads to such a state again |
| `ServerInvariants.VoteKeepsUniquePairs` | server.js:67-76 | From any ledger with unique (email, device) pairs and non-empty fields, including one whose tally a reset has broken, a vote leaves such a ledger |
| `ServerInvariants.RetryIsAlreadyVoted` | server.js:167-172 | After a vote is accepted, a second vote with the same pair is refused and changes nothing, whichever candidate it names |
| `ServerInvariants.EmailAloneIsNotTheKey` | server.js:76 | An email already recorded with one device is accepted with a device id not yet recorded for it |
| `ServerInvariants.UnknownCandidateStillRecorded` | server.js:175-187 | A well-formed new vote naming no existing candidate is answered 200, grows the ledger by one and leaves the roster unchanged |
| `ServerInvariants.FreshBallotsCountN` | server.js:174-184 | After N well-formed votes for one candidate, with pairwise distinct pairs that are new to the ledger, the roster is the old one with that candidate's counter raised by exactly N and every other candidate unchanged, and the ledger is the old one followed by the N records in request order |
| `ServerInvariants.FreshBallotsRaiseTotal` | server.js:174-184 | The same N votes raise the total the results page shows by exactly N |
| `ServerInvariants.SeedIsIdempotent` | server.js:102-112 | Seeding twice equals seeding once |
| `ServerInvariants.ListThenCheckInit` | server.js:126-160 | After listing, check-init reports initialised, and listing again returns the same roster and state |
| `ServerInvariants.ResetTalliedIff` | server.js:200-204 | After reset, counters agree with the ledger if and only if no ledger record names id 1, 2 or 3 |
| `ServerInvariants.ResetKeepsVoters` | server.js:200-204 | A pair recorded before a reset is still refused after it, with no change |
| `ServerInvariants.SeedKeepsConsistency` | server.js:90-116 | Seeding keeps the consistency invariant unless it creates the default ids over a ledger that already names them |
| `ServerInvariants.StartUpIsConsistent` | server.js:118-123 | The seeded empty database satisfies the consistency invariant |
| `ServerInvariants.StepKeepsLedgerIndex` | server.js:119-209 | Every handler, reset included, keeps the unique pair key and the non-empty fields of the ledger |
| `ServerInvariants.RunKeepsLedgerIndex` | server.js:119-209 | Any sequence of requests keeps the unique pair key and the non-empty fields, and the ledger only grows |
| `Results.Total` | app.js:311 | Definition, no contract: the left-fold `reduce` summing voteCount over the candidates |
| `Results.TotalOfBump` | app.js:311 | Adding N to one candidate's count, leaving the rest unchanged, adds N to the total |
| `Results.TotalSplits` | app.js:311 | The summed total of a roster is the sum of the totals of any prefix and the remaining suffix |
| `Results.ComputeResults` | app.js:308-324 | What the results page shows: the summed total, one percentage per candidate, all of them 0 when the total is 0 |
| `Results.Percentage` | app.js:324 | With a zero total the percentage is 0 and no division takes place |
| `Results.Shares` | app.js:323-324 | One percentage per candidate, in roster order, each computed from that candidate's count |
| `Results.CountAtMostTotal` | app.js:311 | No candidate's count exceeds the summed total |
| `Results.TotalZeroIff` | app.js:311 | The summed total is zero exactly when every count is zero |
| `Results.NoVotesNoShares` | app.js:324 | With total 0 every displayed percentage is 0 |
| `Results.ShareIsCountOverTotal` | app.js:324 | With a positive total each percentage equals voteCount * 100 / total |
| `Results.SharesInRange` | app.js:324 | Every percentage lies in [0, 100] |
| `Results.ScaledSum` | app.js:311-324 | The percentages against a positive total add up to the summed counts' share of it |
| `Results.SharesSumTo100` | app.js:311-324 | With a positive total the percentages add up to exactly 100 |
| `JsString.LeadingSpaces` | app.js:204 | Counts the run of white space at the start, stopping at the first other character |
| `JsString.TrailingSpaces` | app.js:204 | Counts the run of white space at the end, stopping at the last other character |
| `JsString.Trim` | app.js:204 | The result is empty exactly when the input is all white space; otherwise it is the slice from the first to the last non-space character |
| `JsString.TrimIsIdempotent` | app.js:204 | Trimming twice equals trimming once |
| `LocalStorage.GenerateDeviceId` | app.js:21-35 | A stored non-empty id is returned with storage unchanged; otherwise a `device_`-prefixed id is stored and returned; afterwards the stored id equals the returned one and no other key changes |
| `LocalStorage.GetDeviceId` | app.js:38-40 | Returns a non-empty id that is then the stored one, touching no other key |
| `LocalStorage.GetDeviceIdIsGenerate` | app.js:38-40 | The `||` fallback gives the same result and storage as calling the generator directly |
| `LocalStorage.DeviceIdIsStable` | app.js:21-40 | Asking for the device id again returns the same id and writes nothing |
| `LocalStorage.HasVoted` | app.js:43-45 | Definition, no contract: the stored flag is present and equals the string 'true' |
| `LocalStorage.GetVoterEmail` | app.js:54-56 | Definition, no contract: the stored email, or nothing when the key is absent |
| `LocalStorage.MarkAsVoted` | app.js:48-51 | Afterwards the flag reads as voted and the stored email is the given one; no other key changes |
| `LocalStorage.DeviceIdKeepsFlagAndEmail` | app.js:38-40 | Obtaining the device id never changes the voted flag or the stored email |
| `Client.HandleRegisterSubmit` | app.js:201-228 | An all-white-space email is refused first, then a device flagged as voted; otherwise the trimmed email is stored; refusals change nothing and the voted flag never changes |
| `Client.Ok` | app.js:389 | Definition, no contract: `response.ok`, a reply whose status is in 200-299 |
| `Client.PrepareVote` | app.js:357-376 | Checks in order: voted flag, selected candidate, stored email; the first two refusals leave storage unchanged, the third changes at most the device id; when it sends, the request carries the selection, the stored email and the stored device id and is complete |
| `Client.FinishVote` | app.js:378-401 | Only an OK reply sets the flag and the email; an error status or a failed request leaves storage unchanged |
| `Client.HandleVoteSubmit` | app.js:354-402 | The flag is set afterwards exactly when it was set before or the vote went through, and a vote goes through exactly when the guards pass and the reply is OK |
| `Election.CastBallot` | app.js:378-401 | A round that ends neither in a cast vote nor in a network error leaves the server unchanged; a cast vote sets the local flag; a network error leaves the flag clear and happens only when the request or its reply is lost, and a lost request leaves the server unchanged |
| `Election.FlagIffRecorded` | app.js:389-392 | From an unflagged registered device whose reply arrives, the flag is set exactly when the pair (stored email, device id) was new to the ledger, and then the ledger gained exactly that record; otherwise the reply is an error and the server is unchanged |
| `Election.RoundKeepsConsistency` | server.js:162-197 | No client action breaks the server's consistency invariant, whether or not the request or its reply is lost |
| `Election.LostReplyStillRecorded` | app.js:378-401 | When the reply to a vote is lost, the ledger still gains the record if the pair was new while the flag stays clear, and a retry from that device is refused and never sets the flag |
| `Election.ClearedFlagStillRefused` | server.js:168-172 | After a cast vote, clearing only the local flag and voting again is refused by the server and leaves the flag cleared |
| `Election.NewDeviceIdVotesAgain` | app.js:21-35 | The same email with a device id the ledger has not seen is accepted again |
| `Election.VoteMovesTotalByOne` | server.js:180-184 | A vote raises the displayed total by one exactly when it is accepted and names an existing candidate, and otherwise leaves it unchanged |

## Left out

- MongoDB connection, URI checks, CORS, `/health`, dotenv and `app.listen` (server.js:1-65, 211-213): configuration and I/O.
- Storage faults: every handler's `catch` answering 500 for an unreachable database, and `initializeCandidates` swallowing its errors, are not modelled; the only 500 modelled is the validation failure of `save`.
- Concurrency: the window between `findOne` and `save`, and a crash between `save` and `findOneAndUpdate`; each handler is one sequential step.
- Object- or array-valued request fields (server.js:164-168): `Vote.findOne` reads an object such as `{"$ne": ""}` as a query selector, so with a non-empty ledger such a body is answered 400 "already voted" rather than the 500 the model gives; neither reply changes state.
- Timestamps (server.js:72), all logging, and the text of every reply message; replies are modelled by outcome and status code.
- JavaScript numbers: `candidateId` is an integer; fractional ids and a `NaN` from `parseInt` are not modelled.
- `loadCandidatesData`'s fetch, check-init, reset and refetch chain with its timeout (app.js:62-154): network plumbing.
- DOM rendering, navigation, `showMessage` timers and `toFixed(1)` formatting; percentages are exact reals, not doubles.
- `castVote` and `checkRegistration` (app.js:269-305, 344-351): they read a `verifiedEmail` key nothing writes and send no device id.
- A `localStorage.setItem` that throws (a full or disabled storage) is not modelled; every write is taken to succeed. That covers the write in `handleRegisterSubmit` (app.js:217-219, inside its `try`) and the two writes of `markAsVoted` (app.js:49-50, reached from the `try` at app.js:378). If the second of those throws, the flag would be set without the email. It also covers the write in `generateDeviceId` (app.js:31), which no `try` guards.
- `config.js`: a single constant choice of URL.


=== FILE: client.dfy ===
/**
 * The guard sequences of the two form handlers in app.js, as pure decisions over the
 * local storage and, for voting, the server's reply. Messages and page switches are
 * not modelled; each handler's effect is its outcome and the storage it leaves.
 */
module Client {

  import opened Options
  import opened JsString
  import opened LocalStorage
  import Server

  // ---------------------------------------------------------------------------
  // Registration form

  datatype RegisterOutcome = NoEmail | VotedBefore | Registered

  datatype Registration = Registration(outcome: RegisterOutcome, store: Storage)

  /**
   * `handleRegisterSubmit`: refuse an email that trims to nothing, then refuse a device
   * already flagged as voted; otherwise store the trimmed email.
   */
  function HandleRegisterSubmit(st: Storage, input: string): (r: Registration)
    ensures r.outcome == NoEmail <==> forall k :: 0 <= k < |input| ==> IsSpace(input[k])
    ensures r.outcome == VotedBefore <==> r.outcome != NoEmail && HasVoted(st)
    ensures r.outcome != Registered ==> r.store == st
    ensures r.outcome == Registered ==>
      GetVoterEmail(r.store) == Some(Trim(input)) && SameExcept(st, r.store, VoterEmailKey)
    ensures HasVoted(r.store) == HasVoted(st)
  {
    var email := Trim(input);
    if |email| == 0 then Registration(NoEmail, st)
    else if HasVoted(st) then Registration(VotedBefore, st)
    else Registration(Registered, st[VoterEmailKey := email])
  }

  // ---------------------------------------------------------------------------
  // Voting form

  /** What came back from `fetch(API_URL + '/vote')`; `NoResponse` is a thrown fetch or JSON error. */
  datatype Reply = Response(status: int) | NoResponse

  /** `response.ok`. */
  predicate Ok(reply: Reply)
  {
    reply.Response? && 200 <= reply.status <= 299
  }

  datatype SubmitOutcome =
    | AlreadyVotedHere   // the local flag is set
    | NoCandidate        // no radio button is checked
    | NoEmailStored      // no registered email
    | Cast               // the server answered OK
    | Refused            // the server answered with an error status
    | NetworkError       // the request or its JSON body failed

  datatype Submission = Submission(outcome: SubmitOutcome, store: Storage)

  /** The guards run before the request: either a stop, or the request to send. */
  datatype Prepared =
    | Stop(outcome: SubmitOutcome, store: Storage)
    | Send(request: Server.VoteRequest, email: string, store: Storage)

  /**
   * The part of `handleVoteSubmit` before `fetch`. The device id is read (and, when
   * missing, created and stored) before the email is checked.
   */
  function PrepareVote(st: Storage, selected: Option<int>, entropy: string): (r: Prepared)
    ensures HasVoted(st) ==> r == Stop(AlreadyVotedHere, st)
    ensures !HasVoted(st) && selected.None? ==> r == Stop(NoCandidate, st)
    ensures r.Stop? && r.outcome == NoEmailStored <==>
      !HasVoted(st) && selected.Some? && !Truthy(GetVoterEmail(st))
    ensures r.Send? <==> !HasVoted(st) && selected.Some? && Truthy(GetVoterEmail(st))
    ensures r.Send? || r.outcome == NoEmailStored ==> SameExcept(st, r.store, DeviceIdKey)
    ensures r.Send? ==>
      && r.request.candidateId == selected
      && GetVoterEmail(st) == Some(r.email) && r.request.voterEmail == Some(r.email)
      && DeviceIdKey in r.store && r.request.deviceId == Some(r.store[DeviceIdKey])
      && Server.Complete(r.request)
      && !HasVoted(r.store)
  {
    if HasVoted(st) then Stop(AlreadyVotedHere, st)
    else if selected.None? then Stop(NoCandidate, st)
    else
      var email := GetVoterEmail(st);
      var device := GetDeviceId(st, entropy);
      DeviceIdKeepsFlagAndEmail(st, entropy);
      if !Truthy(email) then Stop(NoEmailStored, device.store)
      else Send(Server.VoteRequest(Some(selected.value), Some(email.value), Some(device.id)), email.value, device.store)
  }

  /** The part of `handleVoteSubmit` after `fetch`: only an OK reply sets the voted flag. */
  function FinishVote(st: Storage, email: string, reply: Reply): (r: Submission)
    ensures r.outcome == Cast <==> Ok(reply)
    ensures r.outcome == Refused <==> reply.Response? && !Ok(reply)
    ensures Ok(reply) ==> HasVoted(r.store) && GetVoterEmail(r.store) == Some(email)
    ensures !Ok(reply) ==> r.store == st
  {
    match reply
    case NoResponse => Submission(NetworkError, st)
    case Response(_) => if Ok(reply) then Submission(Cast, MarkAsVoted(st, email)) else Submission(Refused, st)
  }

  /** `handleVoteSubmit` with the server's reply given. */
  function HandleVoteSubmit(st: Storage, selected: Option<int>, entropy: string, reply: Reply): (r: Submission)
    ensures HasVoted(st) ==> r == Submission(AlreadyVotedHere, st)
    ensures !HasVoted(st) && selected.None? ==> r == Submission(NoCandidate, st)
    ensures r.outcome == NoEmailStored ==> SameExcept(st, r.store, DeviceIdKey) && !HasVoted(r.store)
    ensures r.outcome == Cast <==>
      !HasVoted(st) && selected.Some? && Truthy(GetVoterEmail(st)) && Ok(reply)
    ensures HasVoted(r.store) <==> HasVoted(st) || r.outcome == Cast
    ensures r.outcome == Cast ==> GetVoterEmail(r.store) == GetVoterEmail(st)
  {
    match PrepareVote(st, selected, entropy)
    case Stop(o, s) => Submission(o, s)
    case Send(_, email, s) => FinishVote(s, email, reply)
  }
}

=== FILE: election.dfy ===
/**
 * One press of the vote button end to end: the client's guards, the `POST /api/vote`
 * handler on the server, and the client's reaction to the status code it sends back.
 * The local flag is only a convenience; these lemmas show the ledger decides.
 */
module Election {

  import opened Options
  import opened LocalStorage
  import opened Server
  import opened Client
  import Results

  datatype Round = Round(client: Storage, server: State, outcome: SubmitOutcome)

  /**
   * What happens to the request on the wire. `ReplyLost` is a request the server handled
   * whose reply never arrived (a dropped connection, a timeout); `RequestLost` never
   * reached the server. Either way `fetch` throws and the client sees no response.
   */
  datatype Transport = Delivered | ReplyLost | RequestLost

  /** The vote form submitted against a server that handles the request as `Vote` does. */
  function CastBallot(client: Storage, server: State, selected: Option<int>, entropy: string, link: Transport): (r: Round)
    ensures r.outcome != Cast && r.outcome != NetworkError ==> r.server == server
    ensures r.outcome == Cast ==> HasVoted(r.client)
    ensures r.outcome == NetworkError ==> !HasVoted(r.client) && link != Delivered
    ensures link == RequestLost ==> r.server == server
  {
    match PrepareVote(client, selected, entropy)
    case Stop(o, st) => Round(st, server, o)
    case Send(req, email, st) =>
      if link == RequestLost then
        var fin := FinishVote(st, email, NoResponse);
        Round(fin.store, server, fin.outcome)
      else
        var v := Vote(server, req);
        var reply := if link == Delivered then Response(Status(v.outcome)) else NoResponse;
        var fin := FinishVote(st, email, reply);
        Round(fin.store, v.state, fin.outcome)
  }

  /**
   * From a device not yet flagged, when the reply arrives, the flag is set exactly when
   * the server appended the record (selected candidate, stored email, device id) to its
   * ledger, which is exactly when that pair was not yet in the ledger.
   */
  lemma FlagIffRecorded(client: Storage, server: State, cid: int, entropy: string)
    requires !HasVoted(client) && Truthy(GetVoterEmail(client))
    ensures var r := CastBallot(client, server, Some(cid), entropy, Delivered);
      var email, device := client[VoterEmailKey], GetDeviceId(client, entropy).id;
      && (HasVoted(r.client) <==> !Recorded(server.votes, email, device))
      && (HasVoted(r.client) ==> r.server.votes == server.votes + [VoteRecord(cid, email, device)])
      && (!HasVoted(r.client) ==> r.outcome == Refused && r.server == server)
  {
  }

  /**
   * When the reply to a vote is lost the server may still have recorded it: the ledger
   * gains the record exactly when the pair was new, yet the flag stays clear. Retrying
   * from the same device is then refused by the ledger, so the flag is never set.
   */
  lemma LostReplyStillRecorded(client: Storage, server: State, cid: int, again: int, entropy: string, later: string)
    requires !HasVoted(client) && Truthy(GetVoterEmail(client))
    ensures var r1 := CastBallot(client, server, Some(cid), entropy, ReplyLost);
      var email, device := client[VoterEmailKey], GetDeviceId(client, entropy).id;
      && r1.outcome == NetworkError && !HasVoted(r1.client)
      && (!Recorded(server.votes, email, device) ==> r1.server.votes == server.votes + [VoteRecord(cid, email, device)])
      && (Recorded(server.votes, email, device) ==> r1.server == server)
    ensures var r1 := CastBallot(client, server, Some(cid), entropy, ReplyLost);
      var r2 := CastBallot(r1.client, r1.server, Some(again), later, Delivered);
      r2.outcome == Refused && r2.server == r1.server && !HasVoted(r2.client)
  {
    var r1 := CastBallot(client, server, Some(cid), entropy, ReplyLost);
    var email, device := client[VoterEmailKey], GetDeviceId(client, entropy).id;
    assert GetVoterEmail(r1.client) == Some(email);
    assert GetItem(r1.client, DeviceIdKey) == Some(device);
    assert Recorded(r1.server.votes, email, device) by {
      if !Recorded(server.votes, email, device) {
        assert r1.server.votes[|server.votes|] == VoteRecord(cid, email, device);
      }
    }
    FlagIffRecorded(r1.client, r1.server, again, later);
  }

  /** A round keeps the server consistent, whatever the client does and whatever the network loses. */
  lemma RoundKeepsConsistency(client: Storage, server: State, selected: Option<int>, entropy: string, link: Transport)
    requires Consistent(server)
    ensures Consistent(CastBallot(client, server, selected, entropy, link).server)
  {
  }

  /**
   * Clearing only the local flag does not let a device vote twice: the same email and
   * device id are refused by the ledger, and the flag stays cleared.
   */
  lemma ClearedFlagStillRefused(client: Storage, server: State, cid: int, again: int, entropy: string, later: string)
    requires !HasVoted(client) && Truthy(GetVoterEmail(client))
    requires CastBallot(client, server, Some(cid), entropy, Delivered).outcome == Cast
    ensures var r1 := CastBallot(client, server, Some(cid), entropy, Delivered);
      var r2 := CastBallot(r1.client - {VotedKey}, r1.server, Some(again), later, Delivered);
      r2.outcome == Refused && r2.server == r1.server && !HasVoted(r2.client)
  {
    var r1 := CastBallot(client, server, Some(cid), entropy, Delivered);
    var email, device := client[VoterEmailKey], GetDeviceId(client, entropy).id;
    FlagIffRecorded(client, server, cid, entropy);
    var c2 := r1.client - {VotedKey};
    assert GetVoterEmail(c2) == Some(email);
    assert GetItem(c2, DeviceIdKey) == Some(device);
    assert r1.server.votes[|server.votes|] == VoteRecord(cid, email, device);
    FlagIffRecorded(c2, r1.server, again, later);
  }

  /**
   * The key is the pair: the same email from a device whose id is not in the ledger
   * (storage wiped, a new id generated) is accepted again.
   */
  lemma NewDeviceIdVotesAgain(client: Storage, server: State, cid: int, entropy: string)
    requires !HasVoted(client) && Truthy(GetVoterEmail(client))
    requires !Recorded(server.votes, client[VoterEmailKey], GetDeviceId(client, entropy).id)
    ensures CastBallot(client, server, Some(cid), entropy, Delivered).outcome == Cast
  {
  }

  // ---------------------------------------------------------------------------
  // What the results page sees after a vote

  /**
   * An accepted vote adds exactly one to the total the results page shows when its id
   * names a candidate, and nothing when it does not; any other outcome changes nothing.
   */
  lemma VoteMovesTotalByOne(s: State, req: VoteRequest)
    ensures var r := Vote(s, req);
      Results.Total(r.state.candidates) ==
        if r.outcome == Accepted && FindCandidate(s.candidates, req.candidateId.value).Some?
        then Results.Total(s.candidates) + 1
        else Results.Total(s.candidates)
  {
    var r := Vote(s, req);
    if r.outcome == Accepted {
      var cs := s.candidates;
      match FindCandidate(cs, req.candidateId.value)
      case None =>
        assert r.state.candidates == cs;
      case Some(i) =>
        Results.TotalOfBump(cs, r.state.candidates, i, 1);
    }
  }
}

=== FILE: js_string.dfy ===
/** `String.prototype.trim` as the registration form uses it. */
module JsString {

  /** ECMAScript WhiteSpace and LineTerminator code points: what `trim` strips. */
  predicate IsSpace(c: char)
  {
    || c == '\t' || c == '\n' || c == '\U{B}' || c == '\U{C}' || c == '\r' || c == ' '
    || c == '\U{A0}' || c == '\U{1680}' || ('\U{2000}' <= c <= '\U{200A}')
    || c == '\U{2028}' || c == '\U{2029}' || c == '\U{202F}' || c == '\U{205F}'
    || c == '\U{3000}' || c == '\U{FEFF}'
  }

  /** Length of the run of white space that starts the string. */
  function LeadingSpaces(s: string): (n: nat)
    ensures n <= |s|
    ensures forall k :: 0 <= k < n ==> IsSpace(s[k])
    ensures n < |s| ==> !IsSpace(s[n])
  {
    if |s| == 0 || !IsSpace(s[0]) then 0 else 1 + LeadingSpaces(s[1..])
  }

  /** Length of the run of white space that ends the string. */
  function TrailingSpaces(s: string): (n: nat)
    ensures n <= |s|
    ensures forall k :: |s| - n <= k < |s| ==> IsSpace(s[k])
    ensures n < |s| ==> !IsSpace(s[|s| - n - 1])
  {
    if |s| == 0 || !IsSpace(s[|s| - 1]) then 0 else 1 + TrailingSpaces(s[..|s| - 1])
  }

  /**
   * The string without its leading and trailing white space: the slice that starts at
   * the first non-space character and ends at the last one, or empty if there is none.
   */
  function Trim(s: string): (r: string)
    ensures |r| == 0 <==> forall k :: 0 <= k < |s| ==> IsSpace(s[k])
    ensures |r| > 0 ==> !IsSpace(r[0]) && !IsSpace(r[|r| - 1])
    ensures LeadingSpaces(s) + |r| <= |s|
    ensures r == s[LeadingSpaces(s)..LeadingSpaces(s) + |r|]
    ensures forall k :: LeadingSpaces(s) + |r| <= k < |s| ==> IsSpace(s[k])
  {
    var rest := s[LeadingSpaces(s)..];
    rest[..|rest| - TrailingSpaces(rest)]
  }

  /** Trimming a trimmed string changes nothing. */
  lemma TrimIsIdempotent(s: string)
    ensures Trim(Trim(s)) == Trim(s)
  {
  }
}

=== FILE: local_storage.dfy ===
/**
 * The browser-side helpers of app.js that keep the device id, the "voted" flag and
 * the registered email in `localStorage`, modelled as a string-to-string map.
 * `Math.random` is replaced by an `entropy` argument.
 */
module LocalStorage {

  import opened Options

  type Storage = map<string, string>

  const VotedKey := "hasVoted"
  const VoterEmailKey := "voterEmail"
  const DeviceIdKey := "deviceId"
  const DevicePrefix := "device_"
  const VotedFlag := "true"

  /** `localStorage.getItem(key)`: `None` is JavaScript `null`. */
  function GetItem(st: Storage, key: string): Option<string>
  {
    if key in st then Some(st[key]) else None
  }

  /** JavaScript truthiness of a `getItem` result: neither `null` nor the empty string. */
  predicate Truthy(v: Option<string>)
  {
    v.Some? && |v.value| > 0
  }

  /** The two stores agree on every key except `key`. */
  ghost predicate SameExcept(a: Storage, b: Storage, key: string)
  {
    forall k :: k != key ==> (k in a <==> k in b) && (k in a ==> a[k] == b[k])
  }

  /** A device id together with the storage left behind by asking for it. */
  datatype DeviceId = DeviceId(store: Storage, id: string)

  /** `generateDeviceId`: keep a stored id, otherwise store `'device_' + <random>` and return it. */
  function GenerateDeviceId(st: Storage, entropy: string): (r: DeviceId)
    ensures DeviceIdKey in r.store && r.store[DeviceIdKey] == r.id
    ensures |r.id| > 0
    ensures SameExcept(st, r.store, DeviceIdKey)
    ensures Truthy(GetItem(st, DeviceIdKey)) ==> r.store == st && r.id == st[DeviceIdKey]
    ensures !Truthy(GetItem(st, DeviceIdKey)) ==>
      |DevicePrefix| <= |r.id| && r.id[..|DevicePrefix|] == DevicePrefix && r.id[|DevicePrefix|..] == entropy
  {
    var stored := GetItem(st, DeviceIdKey);
    if Truthy(stored) then DeviceId(st, stored.value)
    else
      var id := DevicePrefix + entropy;
      DeviceId(st[DeviceIdKey := id], id)
  }

  /** `getDeviceId`: `getItem(DEVICE_ID_KEY) || generateDeviceId()`. */
  function GetDeviceId(st: Storage, entropy: string): (r: DeviceId)
    ensures DeviceIdKey in r.store && r.store[DeviceIdKey] == r.id
    ensures |r.id| > 0
    ensures SameExcept(st, r.store, DeviceIdKey)
    ensures Truthy(GetItem(st, DeviceIdKey)) ==> r.store == st && r.id == st[DeviceIdKey]
  {
    var stored := GetItem(st, DeviceIdKey);
    if Truthy(stored) then DeviceId(st, stored.value) else GenerateDeviceId(st, entropy)
  }

  /** `hasVoted`: the flag is stored and is exactly the string `'true'`. */
  predicate HasVoted(st: Storage)
  {
    GetItem(st, VotedKey) == Some(VotedFlag)
  }

  /** `getVoterEmail`. */
  function GetVoterEmail(st: Storage): Option<string>
  {
    GetItem(st, VoterEmailKey)
  }

  /** `markAsVoted(email)`: set the flag and the email; nothing else changes. */
  function MarkAsVoted(st: Storage, email: string): (r: Storage)
    ensures HasVoted(r)
    ensures GetVoterEmail(r) == Some(email)
    ensures forall k :: k != VotedKey && k != VoterEmailKey ==>
      (k in r <==> k in st) && (k in st ==> r[k] == st[k])
  {
    st[VotedKey := VotedFlag][VoterEmailKey := email]
  }

  // ---------------------------------------------------------------------------

  /** The `||` in `getDeviceId` only short-cuts: it always agrees with `generateDeviceId`. */
  lemma GetDeviceIdIsGenerate(st: Storage, entropy: string)
    ensures GetDeviceId(st, entropy) == GenerateDeviceId(st, entropy)
  {
  }

  /** Once asked for, the device id is fixed: asking again returns it and stores nothing. */
  lemma DeviceIdIsStable(st: Storage, first: string, later: string)
    ensures var d := GetDeviceId(st, first); GetDeviceId(d.store, later) == d
  {
  }

  /** Asking for a device id never touches the voted flag or the stored email. */
  lemma DeviceIdKeepsFlagAndEmail(st: Storage, entropy: string)
    ensures HasVoted(GetDeviceId(st, entropy).store) == HasVoted(st)
    ensures GetVoterEmail(GetDeviceId(st, entropy).store) == GetVoterEmail(st)
  {
  }
}

=== FILE: options.dfy ===
/** Optional values: a JavaScript `null`/`undefined`, or a request field that was not sent. */
module Options {

  datatype Option<+T> = None | Some(value: T)
}

=== FILE: results.dfy ===
/**
 * The results page of the client (app.js `loadResults` / `displayResults`): the
 * vote total and each candidate's share of it, computed over exact reals rather
 * than JavaScript doubles.
 */
module Results {

  import opened Server

  /** `candidatesData.reduce((sum, c) => sum + c.voteCount, 0)`, folded from the left. */
  function Total(cs: seq<Candidate>): nat
  {
    if |cs| == 0 then 0 else Total(cs[..|cs| - 1]) + cs[|cs| - 1].voteCount
  }

  /** `(voteCount / total) * 100` for a positive total. */
  function Share(count: real, total: real): real
    requires total > 0.0
  {
    (count / total) * 100.0
  }

  /** `total > 0 ? (voteCount / total) * 100 : 0`: the zero branch divides by nothing. */
  function Percentage(count: nat, total: nat): (p: real)
    ensures total == 0 ==> p == 0.0
  {
    if total > 0 then Share(count as real, total as real) else 0.0
  }

  /** The percentage shown for each candidate, in roster order, against a given total. */
  function Shares(cs: seq<Candidate>, total: nat): (ps: seq<real>)
    ensures |ps| == |cs|
    ensures forall i :: 0 <= i < |cs| ==> ps[i] == Percentage(cs[i].voteCount, total)
  {
    if |cs| == 0 then [] else Shares(cs[..|cs| - 1], total) + [Percentage(cs[|cs| - 1].voteCount, total)]
  }

  function Sum(xs: seq<real>): real
  {
    if |xs| == 0 then 0.0 else Sum(xs[..|xs| - 1]) + xs[|xs| - 1]
  }

  /** What the results page shows: the total and one percentage per candidate. */
  datatype View = View(total: nat, percentages: seq<real>)

  function ComputeResults(cs: seq<Candidate>): (v: View)
    ensures v.total == Total(cs)
    ensures |v.percentages| == |cs|
    ensures v.total == 0 ==> forall i :: 0 <= i < |cs| ==> v.percentages[i] == 0.0
  {
    var total := Total(cs);
    View(total, Shares(cs, total))
  }

  // ---------------------------------------------------------------------------
  // Real arithmetic on plain reals, kept apart from sequences and integers

  lemma ShareAsQuotient(c: real, t: real)
    requires t > 0.0
    ensures Share(c, t) == c * 100.0 / t
  {
  }

  lemma ShareBounds(c: real, t: real)
    requires 0.0 <= c <= t && t > 0.0
    ensures 0.0 <= Share(c, t) <= 100.0
  {
  }

  lemma ShareOfNothing(t: real)
    requires t > 0.0
    ensures Share(0.0, t) == 0.0
  {
  }

  /** Shares against one total add up like their counts. */
  lemma ShareAdditive(a: real, c: real, t: real)
    requires t > 0.0
    ensures Share(a, t) + Share(c, t) == Share(a + c, t)
  {
  }

  lemma ShareOfWhole(t: real)
    requires t > 0.0
    ensures Share(t, t) == 100.0
  {
  }

  // ---------------------------------------------------------------------------

  /** No single counter exceeds the total. */
  lemma {:induction false} CountAtMostTotal(cs: seq<Candidate>, i: int)
    requires 0 <= i < |cs|
    ensures cs[i].voteCount <= Total(cs)
  {
    if i < |cs| - 1 {
      var init := cs[..|cs| - 1];
      assert init[i] == cs[i];
      CountAtMostTotal(init, i);
    }
  }

  /** The left fold of `reduce` splits at any point: the total is the sum of the parts' totals. */
  lemma {:induction false} TotalSplits(cs: seq<Candidate>, k: int)
    requires 0 <= k <= |cs|
    ensures Total(cs) == Total(cs[..k]) + Total(cs[k..])
  {
    if k < |cs| {
      var n := |cs| - 1;
      assert cs[..n][..k] == cs[..k];
      assert cs[k..][..|cs[k..]| - 1] == cs[..n][k..];
      TotalSplits(cs[..n], k);
    } else {
      assert cs[..k] == cs;
    }
  }

  /** Adding `n` votes to one candidate adds `n` to the total. */
  lemma {:induction false} TotalOfBump(cs: seq<Candidate>, bumped: seq<Candidate>, i: int, n: nat)
    requires 0 <= i < |cs|
    requires bumped == cs[i := cs[i].(voteCount := cs[i].voteCount + n)]
    ensures Total(bumped) == Total(cs) + n
  {
    var last := |cs| - 1;
    if i < last {
      TotalOfBump(cs[..last], bumped[..last], i, n);
    } else {
      assert bumped[..last] == cs[..last];
    }
  }

  /** The total is zero exactly when every counter is zero. */
  lemma {:induction false} TotalZeroIff(cs: seq<Candidate>)
    ensures Total(cs) == 0 <==> forall i :: 0 <= i < |cs| ==> cs[i].voteCount == 0
  {
    if |cs| > 0 {
      var init := cs[..|cs| - 1];
      TotalZeroIff(init);
      assert forall i :: 0 <= i < |init| ==> init[i] == cs[i];
    }
  }

  /** With no votes every percentage is 0; no division happens. */
  lemma NoVotesNoShares(cs: seq<Candidate>)
    requires Total(cs) == 0
    ensures forall i :: 0 <= i < |cs| ==> ComputeResults(cs).percentages[i] == 0.0
  {
  }

  /** With votes, every percentage is `voteCount * 100 / total`. */
  lemma ShareIsCountOverTotal(cs: seq<Candidate>, i: int)
    requires 0 <= i < |cs|
    ensures var v := ComputeResults(cs);
      v.total > 0 ==> v.percentages[i] == (cs[i].voteCount as real) * 100.0 / (v.total as real)
  {
    var v := ComputeResults(cs);
    if v.total > 0 {
      ShareAsQuotient(cs[i].voteCount as real, v.total as real);
    }
  }


  /** Every percentage lies in [0, 100]. */
  lemma SharesInRange(cs: seq<Candidate>, i: int)
    requires 0 <= i < |cs|
    ensures var v := ComputeResults(cs); 0.0 <= v.percentages[i] <= 100.0
  {
    var v := ComputeResults(cs);
    if v.total > 0 {
      CountAtMostTotal(cs, i);
      ShareBounds(cs[i].voteCount as real, v.total as real);
    }
  }

  /** Summing the shares against any positive total gives `Total * 100 / total`. */
  lemma {:induction false} ScaledSum(cs: seq<Candidate>, total: nat)
    requires total > 0
    ensures Sum(Shares(cs, total)) == Share(Total(cs) as real, total as real)
  {
    var t := total as real;
    if |cs| == 0 {
      ShareOfNothing(t);
    } else {
      var init := cs[..|cs| - 1];
      var c := cs[|cs| - 1].voteCount as real;
      assert Shares(cs, total)[..|cs| - 1] == Shares(init, total);
      assert Sum(Shares(cs, total)) == Sum(Shares(init, total)) + Share(c, t);
      ScaledSum(init, total);
      ShareAdditive(Total(init) as real, c, t);
    }
  }

  /** With votes, the percentages add up to exactly 100. */
  lemma SharesSumTo100(cs: seq<Candidate>)
    ensures var v := ComputeResults(cs); v.total > 0 ==> Sum(v.percentages) == 100.0
  {
    var v := ComputeResults(cs);
    if v.total > 0 {
      ScaledSum(cs, v.total);
      ShareOfWhole(v.total as real);
    }
  }

}

=== FILE: server.dfy ===
/**
 * The backend of the election: the candidate roster and the vote ledger kept in
 * MongoDB (server.js), modelled as one immutable state, and the HTTP handlers
 * as pure state transitions.
 */
module Server {

  import opened Options

  /** A row of the `Candidate` collection. A vote raises the counter by one; a reset recreates the row at 0. */
  datatype Candidate = Candidate(id: int, name: string, voteCount: nat)

  /** A row of the `Vote` collection; the timestamp is informational and not modelled. */
  datatype VoteRecord = VoteRecord(candidateId: int, voterEmail: string, deviceId: string)

  /** Both collections, in insertion order. */
  datatype State = State(candidates: seq<Candidate>, votes: seq<VoteRecord>)

  /**
   * The body of `POST /api/vote`; `None` is a field that is absent or a scalar that
   * cannot be cast. Object-valued fields are not modelled.
   */
  datatype VoteRequest = VoteRequest(candidateId: Option<int>, voterEmail: Option<string>, deviceId: Option<string>)

  /** What the vote handler answers: 200, 400 "already voted", or 500 from a failed save. */
  datatype VoteOutcome = Accepted | AlreadyVoted | Invalid

  datatype VoteResult = VoteResult(state: State, outcome: VoteOutcome)

  /** The reply of `GET /api/candidates`, with the state it leaves behind. */
  datatype Listing = Listing(state: State, roster: seq<Candidate>)

  /** The reply of `GET /api/check-init`. */
  datatype InitStatus = InitStatus(initialized: bool, candidates: seq<Candidate>)

  /** HTTP status code the vote handler sends for each outcome. */
  function Status(o: VoteOutcome): (code: int)
    ensures 200 <= code <= 299 <==> o == Accepted
    ensures o == AlreadyVoted ==> code == 400
    ensures o == Invalid ==> code == 500
  {
    match o
    case Accepted => 200
    case AlreadyVoted => 400
    case Invalid => 500
  }

  /** The three candidates `initializeCandidates` creates. */
  function DefaultRoster(): seq<Candidate>
  {
    [ Candidate(1, "ARVIND MEEENA", 0),
      Candidate(2, "RUDRA PRATAP", 0),
      Candidate(3, "IVAN SHARMA", 0) ]
  }

  // ---------------------------------------------------------------------------
  // Ledger queries and the consistency invariant

  /** Some ledger record carries the pair (email, device): the unique index key. */
  predicate Recorded(votes: seq<VoteRecord>, email: string, device: string)
  {
    exists i :: 0 <= i < |votes| && votes[i].voterEmail == email && votes[i].deviceId == device
  }

  /** Number of ledger records that name candidate `id`. */
  function CountFor(votes: seq<VoteRecord>, id: int): nat
  {
    if |votes| == 0 then 0
    else CountFor(votes[..|votes| - 1], id) + (if votes[|votes| - 1].candidateId == id then 1 else 0)
  }

  /** The unique index on `Candidate.id`. */
  ghost predicate UniqueIds(cs: seq<Candidate>)
  {
    forall i, j :: 0 <= i < j < |cs| ==> cs[i].id != cs[j].id
  }

  /** The compound unique index on (voterEmail, deviceId). */
  ghost predicate UniquePairs(votes: seq<VoteRecord>)
  {
    forall i, j :: 0 <= i < j < |votes| ==>
      votes[i].voterEmail != votes[j].voterEmail || votes[i].deviceId != votes[j].deviceId
  }

  /** Every stored record passed the `required` validators: both strings are non-empty. */
  ghost predicate WellFormed(votes: seq<VoteRecord>)
  {
    forall i :: 0 <= i < |votes| ==> |votes[i].voterEmail| > 0 && |votes[i].deviceId| > 0
  }

  /** Each candidate's counter equals the number of ledger records naming it. */
  ghost predicate Tallied(s: State)
  {
    forall i :: 0 <= i < |s.candidates| ==> s.candidates[i].voteCount == CountFor(s.votes, s.candidates[i].id)
  }

  ghost predicate Consistent(s: State)
  {
    UniqueIds(s.candidates) && UniquePairs(s.votes) && WellFormed(s.votes) && Tallied(s)
  }

  // ---------------------------------------------------------------------------
  // POST /api/vote

  /** `i` is the position `findOneAndUpdate({id})` picks: the first candidate with that id. */
  ghost predicate FirstWithId(cs: seq<Candidate>, id: int, i: int)
  {
    0 <= i < |cs| && cs[i].id == id && forall j :: 0 <= j < i ==> cs[j].id != id
  }

  /** The position of the first candidate whose id is `id`, if any. */
  function FindCandidate(cs: seq<Candidate>, id: int): (r: Option<nat>)
    ensures r.Some? ==> FirstWithId(cs, id, r.value)
    ensures r.None? ==> forall j :: 0 <= j < |cs| ==> cs[j].id != id
  {
    if |cs| == 0 then None
    else if cs[0].id == id then Some(0)
    else
      match FindCandidate(cs[1..], id)
      case None => None
      case Some(k) => Some(k + 1)
  }

  /** `findOneAndUpdate({ id }, { $inc: { voteCount: 1 } })`; no match updates nothing. */
  function IncrementVote(cs: seq<Candidate>, id: int): (r: seq<Candidate>)
    ensures |r| == |cs|
    ensures forall i :: 0 <= i < |cs| ==> r[i].id == cs[i].id && r[i].name == cs[i].name
    ensures forall i :: 0 <= i < |cs| ==>
      r[i].voteCount == if FirstWithId(cs, id, i) then cs[i].voteCount + 1 else cs[i].voteCount
  {
    match FindCandidate(cs, id)
    case None => cs
    case Some(i) => cs[i := cs[i].(voteCount := cs[i].voteCount + 1)]
  }

  /** The pre-check `Vote.findOne({ voterEmail, deviceId })` finds a record. */
  predicate Duplicate(votes: seq<VoteRecord>, req: VoteRequest)
  {
    req.voterEmail.Some? && req.deviceId.Some? && Recorded(votes, req.voterEmail.value, req.deviceId.value)
  }

  /** The request passes the schema's `required` validators (an empty string fails them). */
  predicate Complete(req: VoteRequest)
  {
    && req.candidateId.Some?
    && req.voterEmail.Some? && |req.voterEmail.value| > 0
    && req.deviceId.Some? && |req.deviceId.value| > 0
  }

  /**
   * The `POST /api/vote` handler as one sequential step. The duplicate pre-check and
   * the duplicate-key error of `save` give the same reply, so they are one outcome.
   * Nothing checks that the candidate exists.
   */
  function Vote(s: State, req: VoteRequest): (r: VoteResult)
    ensures Duplicate(s.votes, req) ==> r.outcome == AlreadyVoted
    ensures !Duplicate(s.votes, req) && !Complete(req) ==> r.outcome == Invalid
    ensures r.outcome == Accepted <==> !Duplicate(s.votes, req) && Complete(req)
    ensures r.outcome != Accepted ==> r.state == s
    ensures r.outcome == Accepted ==>
      r.state.votes == s.votes + [VoteRecord(req.candidateId.value, req.voterEmail.value, req.deviceId.value)]
    ensures r.outcome == Accepted ==>
      && |r.state.candidates| == |s.candidates|
      && forall i :: 0 <= i < |s.candidates| ==>
           r.state.candidates[i] ==
             if FirstWithId(s.candidates, req.candidateId.value, i)
             then s.candidates[i].(voteCount := s.candidates[i].voteCount + 1)
             else s.candidates[i]
  {
    if Duplicate(s.votes, req) then VoteResult(s, AlreadyVoted)
    else if !Complete(req) then VoteResult(s, Invalid)
    else
      var rec := VoteRecord(req.candidateId.value, req.voterEmail.value, req.deviceId.value);
      VoteResult(State(IncrementVote(s.candidates, rec.candidateId), s.votes + [rec]), Accepted)
  }

  // ---------------------------------------------------------------------------
  // Seeding, reset, listing

  /** `initializeCandidates`: create the default roster only when there are no candidates. */
  function SeedIfEmpty(s: State): (r: State)
    ensures r.votes == s.votes
    ensures |s.candidates| > 0 ==> r == s
    ensures |s.candidates| == 0 ==> r.candidates == DefaultRoster()
    ensures |r.candidates| > 0
  {
    if |s.candidates| == 0 then State(DefaultRoster(), s.votes) else s
  }

  /** `POST /api/reset-candidates`: delete every candidate, then seed. Votes stay. */
  function Reset(s: State): (r: State)
    ensures r.votes == s.votes
    ensures r.candidates == DefaultRoster()
  {
    SeedIfEmpty(State([], s.votes))
  }

  /** `GET /api/candidates`: seed an empty roster first, then return the roster. */
  function ListCandidates(s: State): (r: Listing)
    ensures r.roster == r.state.candidates
    ensures |r.roster| > 0
    ensures r.state.votes == s.votes
    ensures |s.candidates| > 0 ==> r.state == s
    ensures |s.candidates| == 0 ==> r.roster == DefaultRoster()
  {
    var seeded := SeedIfEmpty(s);
    Listing(seeded, seeded.candidates)
  }

  /** `GET /api/check-init`: a read-only report. */
  function CheckInit(s: State): (r: InitStatus)
    ensures r.initialized <==> |r.candidates| > 0
    ensures r.candidates == s.candidates
  {
    InitStatus(|s.candidates| > 0, s.candidates)
  }

  // ---------------------------------------------------------------------------
  // Every handler as one step

  /** A request to one of the handlers that touch the database, or the seeding at start-up. */
  datatype Request =
    | PostVote(body: VoteRequest)
    | GetCandidates
    | GetCheckInit
    | PostReset
    | StartUp

  /**
   * The state a handler leaves behind. Only an accepted vote changes the ledger, and
   * it only appends to it.
   */
  function Step(s: State, q: Request): (r: State)
    ensures s.votes <= r.votes
    ensures r.votes != s.votes ==>
      q.PostVote? && Vote(s, q.body).outcome == Accepted && |r.votes| == |s.votes| + 1
    ensures q.GetCheckInit? ==> r == s
  {
    match q
    case PostVote(body) => Vote(s, body).state
    case GetCandidates => ListCandidates(s).state
    case GetCheckInit => s
    case PostReset => Reset(s)
    case StartUp => SeedIfEmpty(s)
  }
}

=== FILE: server_invariants.dfy ===
/**
 * What the handlers of module Server keep and what they break: the unique pair key,
 * the per-candidate tally, and the effect of seeding and reset on both.
 */
module ServerInvariants {

  import opened Options
  import opened Server
  import Results

  // ---------------------------------------------------------------------------
  // Counting ledger records

  /** A candidate has no records exactly when no record names it. */
  lemma {:induction false} CountForZeroIff(votes: seq<VoteRecord>, id: int)
    ensures CountFor(votes, id) == 0 <==> forall i :: 0 <= i < |votes| ==> votes[i].candidateId != id
  {
    if |votes| > 0 {
      var init := votes[..|votes| - 1];
      CountForZeroIff(init, id);
      assert forall i :: 0 <= i < |init| ==> init[i] == votes[i];
    }
  }

  // ---------------------------------------------------------------------------
  // POST /api/vote

  /** An accepted vote keeps both unique indexes, the `required` validators and the tally. */
  lemma VotePreservesConsistency(s: State, req: VoteRequest)
    requires Consistent(s)
    ensures Consistent(Vote(s, req).state)
  {
  }

  /**
   * The compound unique index and the `required` validators hold in every state, not
   * only in consistent ones: a vote keeps them even after a reset has broken the tally.
   */
  lemma VoteKeepsUniquePairs(s: State, req: VoteRequest)
    requires UniquePairs(s.votes) && WellFormed(s.votes)
    ensures UniquePairs(Vote(s, req).state.votes) && WellFormed(Vote(s, req).state.votes)
  {
  }

  /** Once a vote is accepted, every later vote with the same pair is refused, whatever candidate it names. */
  lemma RetryIsAlreadyVoted(s: State, first: VoteRequest, again: VoteRequest)
    requires Vote(s, first).outcome == Accepted
    requires again.voterEmail == first.voterEmail && again.deviceId == first.deviceId
    ensures Vote(Vote(s, first).state, again) == VoteResult(Vote(s, first).state, AlreadyVoted)
  {
    var votes := Vote(s, first).state.votes;
    assert votes[|votes| - 1].voterEmail == first.voterEmail.value;
    assert votes[|votes| - 1].deviceId == first.deviceId.value;
  }

  /** The key is the pair: an email already recorded with one device is accepted with another. */
  lemma EmailAloneIsNotTheKey(s: State, cid: int, email: string, device: string, other: string)
    requires Recorded(s.votes, email, device)
    requires !Recorded(s.votes, email, other)
    requires |email| > 0 && |other| > 0
    ensures Vote(s, VoteRequest(Some(cid), Some(email), Some(other))).outcome == Accepted
  {
  }

  /** A vote for an id no candidate has is still recorded and answered with success; no counter moves. */
  lemma UnknownCandidateStillRecorded(s: State, req: VoteRequest)
    requires Complete(req) && !Duplicate(s.votes, req)
    requires forall i :: 0 <= i < |s.candidates| ==> s.candidates[i].id != req.candidateId.value
    ensures Vote(s, req).outcome == Accepted && Status(Vote(s, req).outcome) == 200
    ensures Vote(s, req).state.candidates == s.candidates
    ensures |Vote(s, req).state.votes| == |s.votes| + 1
  {
  }

  // ---------------------------------------------------------------------------
  // A run of votes

  /** The handler applied to each request in turn. */
  function VoteAll(s: State, reqs: seq<VoteRequest>): State
    decreases |reqs|
  {
    if |reqs| == 0 then s else VoteAll(Vote(s, reqs[0]).state, reqs[1..])
  }

  /** The requests are well-formed, name `cid`, and carry pairwise distinct pairs that are all new. */
  ghost predicate FreshBallotsFor(s: State, reqs: seq<VoteRequest>, cid: int)
  {
    && (forall k :: 0 <= k < |reqs| ==> Complete(reqs[k]) && reqs[k].candidateId == Some(cid))
    && (forall k :: 0 <= k < |reqs| ==> !Duplicate(s.votes, reqs[k]))
    && (forall k, l :: 0 <= k < l < |reqs| ==>
          reqs[k].voterEmail != reqs[l].voterEmail || reqs[k].deviceId != reqs[l].deviceId)
  }

  /** The ledger record an accepted request appends. */
  function Ballot(req: VoteRequest): VoteRecord
    requires Complete(req)
  {
    VoteRecord(req.candidateId.value, req.voterEmail.value, req.deviceId.value)
  }

  /** The records a run of accepted requests appends, in request order. */
  function Ballots(reqs: seq<VoteRequest>): (r: seq<VoteRecord>)
    requires forall k :: 0 <= k < |reqs| ==> Complete(reqs[k])
    ensures |r| == |reqs|
    ensures forall k :: 0 <= k < |reqs| ==> r[k] == Ballot(reqs[k])
  {
    if |reqs| == 0 then [] else [Ballot(reqs[0])] + Ballots(reqs[1..])
  }

  /** Appending a run of records is appending its first, then the rest. */
  lemma AppendBallots(votes: seq<VoteRecord>, reqs: seq<VoteRequest>)
    requires forall k :: 0 <= k < |reqs| ==> Complete(reqs[k])
    requires |reqs| > 0
    ensures votes + Ballots(reqs) == (votes + [Ballot(reqs[0])]) + Ballots(reqs[1..])
  {
  }

  /**
   * The first of a run of fresh ballots for the candidate at `i` moves that counter and
   * nothing else and appends one record; the remaining ballots are still fresh.
   */
  lemma FreshFirstStep(s: State, reqs: seq<VoteRequest>, cid: int, i: nat)
    requires FreshBallotsFor(s, reqs, cid) && |reqs| > 0
    requires FirstWithId(s.candidates, cid, i)
    ensures Vote(s, reqs[0]).state ==
      State(s.candidates[i := s.candidates[i].(voteCount := s.candidates[i].voteCount + 1)], s.votes + [Ballot(reqs[0])])
    ensures FreshBallotsFor(Vote(s, reqs[0]).state, reqs[1..], cid)
    ensures FirstWithId(Vote(s, reqs[0]).state.candidates, cid, i)
  {
    var s1 := Vote(s, reqs[0]).state;
    var rest := reqs[1..];
    forall k | 0 <= k < |rest|
      ensures !Duplicate(s1.votes, rest[k])
    {
      assert rest[k] == reqs[k + 1];
    }
  }

  /**
   * N fresh ballots for a candidate raise its counter by exactly N and leave every other
   * candidate as it was; the ledger gains the N records in request order.
   */
  lemma {:induction false} FreshBallotsCountN(s: State, reqs: seq<VoteRequest>, cid: int, i: nat)
    requires FreshBallotsFor(s, reqs, cid)
    requires FirstWithId(s.candidates, cid, i)
    ensures VoteAll(s, reqs).candidates == s.candidates[i := s.candidates[i].(voteCount := s.candidates[i].voteCount + |reqs|)]
    ensures VoteAll(s, reqs).votes == s.votes + Ballots(reqs)
    decreases |reqs|
  {
    if |reqs| > 0 {
      var rest := reqs[1..];
      FreshFirstStep(s, reqs, cid, i);
      var s1 := Vote(s, reqs[0]).state;
      FreshBallotsCountN(s1, rest, cid, i);
      assert VoteAll(s, reqs) == VoteAll(s1, rest);
      AppendBallots(s.votes, reqs);
    }
  }

  /** N fresh ballots for a candidate raise the total the results page shows by exactly N. */
  lemma FreshBallotsRaiseTotal(s: State, reqs: seq<VoteRequest>, cid: int, i: nat)
    requires FreshBallotsFor(s, reqs, cid)
    requires FirstWithId(s.candidates, cid, i)
    ensures Results.Total(VoteAll(s, reqs).candidates) == Results.Total(s.candidates) + |reqs|
  {
    FreshBallotsCountN(s, reqs, cid, i);
    Results.TotalOfBump(s.candidates, VoteAll(s, reqs).candidates, i, |reqs|);
  }

  // ---------------------------------------------------------------------------
  // Seeding and reset

  lemma SeedIsIdempotent(s: State)
    ensures SeedIfEmpty(SeedIfEmpty(s)) == SeedIfEmpty(s)
  {
  }

  /** After `GET /api/candidates` the diagnostic endpoint always reports an initialised roster. */
  lemma ListThenCheckInit(s: State)
    ensures CheckInit(ListCandidates(s).state).initialized
    ensures ListCandidates(ListCandidates(s).state) == ListCandidates(s)
  {
  }

  /** No ledger record names one of the default ids 1, 2, 3. */
  ghost predicate NoDefaultIdVotes(votes: seq<VoteRecord>)
  {
    forall i :: 0 <= i < |votes| ==> votes[i].candidateId !in {1, 2, 3}
  }

  /** The reset roster agrees with the ledger exactly when the ledger names none of its ids. */
  lemma ResetTalliedIff(s: State)
    ensures Tallied(Reset(s)) <==> NoDefaultIdVotes(s.votes)
  {
    var cs := Reset(s).candidates;
    CountForZeroIff(s.votes, 1);
    CountForZeroIff(s.votes, 2);
    CountForZeroIff(s.votes, 3);
    if Tallied(Reset(s)) {
      assert cs[0].voteCount == CountFor(s.votes, 1);
      assert cs[1].voteCount == CountFor(s.votes, 2);
      assert cs[2].voteCount == CountFor(s.votes, 3);
    }
  }

  /** Reset keeps the ledger, so a pair recorded before it is still refused after it. */
  lemma ResetKeepsVoters(s: State, req: VoteRequest)
    requires Duplicate(s.votes, req)
    ensures Vote(Reset(s), req) == VoteResult(Reset(s), AlreadyVoted)
  {
  }

  /** Seeding keeps consistency unless it places the default ids over a ledger that already names them. */
  lemma SeedKeepsConsistency(s: State)
    requires Consistent(s)
    requires |s.candidates| == 0 ==> NoDefaultIdVotes(s.votes)
    ensures Consistent(SeedIfEmpty(s))
  {
    if |s.candidates| == 0 {
      ResetTalliedIff(s);
    }
  }

  /** A fresh database, seeded at start-up, is consistent. */
  lemma StartUpIsConsistent()
    ensures Consistent(SeedIfEmpty(State([], [])))
  {
    SeedKeepsConsistency(State([], []));
  }

  // ---------------------------------------------------------------------------
  // Any sequence of requests

  /** Every handler keeps the unique pair key and the `required` validators. */
  lemma StepKeepsLedgerIndex(s: State, q: Request)
    requires UniquePairs(s.votes) && WellFormed(s.votes)
    ensures UniquePairs(Step(s, q).votes) && WellFormed(Step(s, q).votes)
  {
    if q.PostVote? {
      VoteKeepsUniquePairs(s, q.body);
    }
  }

  /** The handlers applied to each request in turn. */
  function Run(s: State, qs: seq<Request>): State
    decreases |qs|
  {
    if |qs| == 0 then s else Run(Step(s, qs[0]), qs[1..])
  }

  /**
   * Whatever requests arrive, in whatever order, and including resets, the ledger never
   * holds two records with the same (email, device) pair or a record with an empty field,
   * and it only ever grows.
   */
  lemma {:induction false} RunKeepsLedgerIndex(s: State, qs: seq<Request>)
    requires UniquePairs(s.votes) && WellFormed(s.votes)
    ensures UniquePairs(Run(s, qs).votes) && WellFormed(Run(s, qs).votes)
    ensures s.votes <= Run(s, qs).votes
    decreases |qs|
  {
    if |qs| > 0 {
      var s1 := Step(s, qs[0]);
      StepKeepsLedgerIndex(s, qs[0]);
      RunKeepsLedgerIndex(s1, qs[1..]);
    }
  }
}
